=== FILE: README.md ===
# Download-folder view and main-process orchestration, modelled in Dafny

This project models the core of a small Electron desktop application that
downloads audio from a pasted URL through a local download service and lists
the resulting `.mp3` files. Two source files hold the logic:

- `frontend/renderer.js`, the window's script: the duration text
  (`formatDuration`), the download-folder setting (stored folder or default,
  select, reset, the shortened label), the file table built from the folder's
  entries (`loadDownloadedFiles`, `createRowHTML`), the delete button, and the
  status banner set by the download replies.
- `main.js`, the main process: the `download-audio` handler that posts the URL
  to the service and answers with exactly one `download-complete` or
  `download-error`, and the progress socket (`setupWebSocket`) whose handlers
  relay frames, errors and connection status to the window and arm a
  reconnect 5 seconds after every close (see "Left out" for a closed window
  on macOS).

Everything works on immutable values: pure functions, plus two methods (`FileList.ListRows` and `FileList.LoadDownloadedFiles`) that loop over the entries without touching the heap. The file system is a map from
folder path to its entries. The preference store is the `downloadFolder`
value as an `Option<string>`. `parseFile`, `fs.unlinkSync`, `confirm`, the
service call and `JSON.parse` are oracles passed in as parameters. The
socket is a step function from the channel state and one event to the next
state and the ordered effects: messages to the window, timers armed, sockets
opened.

| file | module | models |
|---|---|---|
| `wrappers.dfy` | `Wrappers` | `Option`, standing for `null`/`undefined` |
| `text.dfy` | `Text` | `endsWith`, `padStart`, integer `toString()` and its inverse |
| `paths.dfy` | `Paths` | `path.join` of a folder and an entry, `path.parse(p).name` (POSIX rules) |
| `duration.dfy` | `Duration` | `formatDuration` and a parser that inverts it |
| `folder_setting.dfy` | `FolderSetting` | stored/default folder, select, reset, folder label |
| `file_list.dfy` | `FileList` | the `.mp3` listing, row contents, delete |
| `download_handler.dfy` | `DownloadHandler` | the `download-audio` handler |
| `status_banner.dfy` | `StatusBanner` | download click and reply listeners |
| `progress_socket.dfy` | `ProgressSocket` | the `setupWebSocket` handlers and the reconnect timer |

Behaviour of the code worth knowing, modelled as written:
- The download click sends whatever is in the URL field, even an empty string. No URL is validated first.
- Nothing stops a second request while one is running.
- The delete handler stops playback before the unlink, so a failed unlink still leaves the player stopped.
- The downloaded file always goes to `<app>/frontend/downloads`. The folder chosen in the renderer is never sent to the main process (`DownloadHandler.SelectedFolderNotUsedForDownload`).
- `main.js` has no handler for `select-folder`, so nothing ever sends `folder-selected`. The renderer's handler is modelled as written.

## Model

| member | source | states |
|---|---|---|
| `Duration.FormatDuration` | frontend/renderer.js:76-81 | the result is empty exactly when the seconds are 0 (falsy) |
| `Duration.FormatDurationIsClock` | frontend/renderer.js:78-80 | a positive duration is written `M:SS`: canonical minutes, a colon, exactly two digits of seconds below 60 |
| `Duration.FormatThenParse` | frontend/renderer.js:76-81 | reading the text back gives the duration again, so `minutes * 60 + seconds` is the input and no two durations share a text |
| `Duration.ParseThenFormat` | frontend/renderer.js:78-80 | every `M:SS` clock text (and `""`) is what `formatDuration` writes for the duration it denotes |
| `FolderSetting.ResolveFolder` | frontend/renderer.js:240-241 | a stored non-empty folder is used; a missing key or `""` gives `<dir>/downloads` |
| `FolderSetting.SelectFolder` | frontend/renderer.js:45-51 | a truthy selection is stored and refreshes the view; `null` or `""` leaves the store as it was and refreshes nothing |
| `FolderSetting.ResetFolder` | frontend/renderer.js:37-43 | reset deletes the key and refreshes the view |
| `FolderSetting.SelectionTakesEffect` | frontend/renderer.js:45-51 | after selecting a non-empty folder, that folder is the one in use |
| `FolderSetting.CancelledSelectionKeepsFolder` | frontend/renderer.js:45-51 | a cancelled selection leaves the folder in use unchanged |
| `FolderSetting.ResetRestoresDefault` | frontend/renderer.js:37-43 | after a reset the default folder is in use, whatever was stored |
| `FolderSetting.ShownFolder` | frontend/renderer.js:338-341 | a folder of at most 50 characters is shown as it is; a longer one as `...` and its last 50 characters, 53 in all |
| `FolderSetting.ShownFolderIsTail` | frontend/renderer.js:338-341 | the shown text is at most 53 characters and ends with the folder's last min(length, 50) characters |
| `FolderSetting.ShownFolderIdempotent` | frontend/renderer.js:338-341 | shortening a shortened folder changes nothing |
| `FolderSetting.CurrentFolderLabel` | frontend/renderer.js:331-347 | the label is `Current Folder: ` and the shortened folder in use, at most 69 characters, equal to the tooltip when the folder fits; the tooltip carries the full folder |
| `FolderSetting.LabelAfterSelection` | frontend/renderer.js:45-51 | after a selection the tooltip names the chosen folder in full and the label ends with as much of it as fits |
| `FileList.AudioFiles` | frontend/renderer.js:252-254 | the listed names all end in `.mp3`, come from the directory, and are no more than its entries |
| `FileList.AudioFilesMembership` | frontend/renderer.js:252-254 | a name is listed if and only if it is a directory entry ending in `.mp3` |
| `FileList.AudioFilesAppend` | frontend/renderer.js:252-254 | filtering keeps directory order: the files of `a + b` are those of `a` followed by those of `b` |
| `FileList.MakeRow` | frontend/renderer.js:213-228 | a row carries its path and the path's name; without metadata its hidden cells are empty |
| `FileList.AudioRowName` | frontend/renderer.js:214 | the row of entry `x.mp3` shows `x`; an entry named just `.mp3` keeps its name |
| `FileList.ListRows` | frontend/renderer.js:256-270 | one row per `.mp3` file in order, each with the joined path and the file's name, whether or not its metadata parses |
| `FileList.LoadDownloadedFiles` | frontend/renderer.js:239-270 | the resolved folder is read; a missing folder is created and shows no rows and no error; an unreadable one shows no rows and logs its error; otherwise one row per `.mp3` entry, no two with the same path |
| `FileList.AudioFilesOfListing` | frontend/renderer.js:252-254 | the `.mp3` entries of a directory are distinct entry names again |
| `FileList.ListedPathsDistinct` | frontend/renderer.js:256-257 | joining distinct entry names to one folder gives rows with distinct paths |
| `FileList.MergeLoads` | frontend/renderer.js:243-269 | two loads that both clear the table before either appends leave all rows of both, each as often as the two loads together hold it |
| `FileList.DeleteRow` | frontend/renderer.js:293-319 | nothing happens unless confirmed; a confirmed delete unlinks the row's file exactly once, after stopping the player exactly when the row is the current track; the row is removed exactly when the unlink succeeds and an error is reported exactly when it fails, as the last step |
| `FileList.DeletedFileLeavesTable` | frontend/renderer.js:311-312 | a successful delete keeps every other row and leaves no row for the deleted file |
| `DownloadHandler.HandleDownload` | main.js:68-92 | the request posts the URL and `<app>/frontend/downloads`; exactly one reply follows, `download-complete` with `file_path` exactly when the status is `success`, else `download-error` with the service's `message` (`""` when absent), the thrown error's message, or V8's message for a `null` body |
| `DownloadHandler.DefaultFolderIsDownloadDir` | main.js:75-78 | with no stored folder, the renderer lists the folder the service is told to download into |
| `DownloadHandler.SelectedFolderNotUsedForDownload` | main.js:75-78 | with any other folder stored, the download still goes to `<app>/frontend/downloads`, which the list then does not show |
| `StatusBanner.OnDownloadClick` | frontend/renderer.js:24-31 | a click sends the URL as typed and shows the started banner "Download started..." |
| `StatusBanner.OnReply` | frontend/renderer.js:53-73 | `download-complete` shows the finished banner "Download complete!" and reloads the list twice (two listeners); `download-error` shows `Error: <message>` and reloads nothing |
| `StatusBanner.ClickEndsInOneVerdict` | main.js:68-92 | every click leads to one final banner, finished exactly when the service reported success |
| `StatusBanner.TableAfterReplyAsWritten` | frontend/renderer.js:53-63 | as written, a completed download leaves twice the folder's rows in the table, two copies of each; an error leaves the table alone |
| `StatusBanner.ReplyRepeatsEveryRow` | frontend/renderer.js:326-328 | as written, after a completed download a non-empty folder's table has two rows with the same path, in any finishing order |
| `StatusBanner.OneFileShownTwice` | frontend/renderer.js:326-328 | as written, a folder holding one file shows it twice after a completed download |
| `StatusBanner.TableAfterReply` | frontend/renderer.js:53-63 | with one load per completed download, the table holds exactly the folder's rows; an error leaves it alone |
| `StatusBanner.ReplyKeepsPathsDistinct` | frontend/renderer.js:53-63 | with one load per completed download, every file is shown once, as deleting a row by its path assumes |
| `ProgressSocket.Start` | main.js:8-12 | the first call opens exactly one socket, to `ws://localhost:8000/ws` with a 1000 ms handshake timeout, in the connecting state, with no timer armed |
| `ProgressSocket.Handle` | main.js:14-45 | `open` sets the connection to connected, keeps any armed timers and reports `connected`; a decoded frame is forwarded as `websocket-message`, a malformed one or a socket error as `websocket-error` with its message, and neither changes the channel; `close` reports `disconnected` and then arms exactly one 5000 ms timer; a due timer opens one socket to the feed with the 1000 ms timeout and the channel is connecting again; without a window nothing is sent |
| `ProgressSocket.RetryPerClose` | main.js:33-39 | over any run of events, the timers armed equal the closes seen, with no cap |
| `ProgressSocket.ProgressInArrivalOrder` | main.js:14-24 | with a window, the decoded frames are forwarded as `websocket-message`, all of them, in arrival order |
| `ProgressSocket.SilentWithoutWindow` | main.js:26-39 | without a window nothing is sent, but every close still arms its timer (the `if (mainWindow)` guards as written; `mainWindow` is set before the first socket opens, so in the running app this case does not arise) |
| `ProgressSocket.MessagesKeepConnection` | main.js:14-31 | frames, malformed or not, and socket errors never change the connection, arm a timer or open a socket |
| `ProgressSocket.ReconnectsWithoutLimit` | main.js:33-39 | after any number `n` of close/timer cycles the channel has armed `n` timers, opened `n` sockets and is connecting again |

## Left out

- DOM work, the mini audio player, row click handlers and drag-and-drop (`frontend/renderer.js:83-210`, `272-290`), and the `drag-file` handler in `main.js:94-99`. These are user interface.
- Timeline and playhead position arithmetic. It is floating point.
- Duration.FormatDuration: takes a natural number of seconds. Fractional seconds, `NaN` and `undefined` are not modelled. Neither is the loss of integer precision in doubles above 2^53, or the exponent notation `toString()` uses from 10^21.
- Banner hide timers (`frontend/renderer.js:59-61`, `70-72`). Both use 2000 ms, although the comment on the error one says 5 seconds.
- Console logging (`main.js:21`, `27`, `34`, `89`; `frontend/renderer.js:55`, `265`, `314`) is not modelled. The one exception is the load failure, kept as `Listing.failure` (`frontend/renderer.js:321`).
- Log forwarding (`frontend/renderer.js:11-21`), window creation and app lifecycle (`main.js:48-66`).
- Paths.Join: does not normalise `.`, `..` or repeated separators, as `path.join` does. Only POSIX separators are modelled.
- FolderSetting.ShownFolder: counts Unicode scalar values, while JavaScript's `length` and `slice` count UTF-16 code units. A folder with characters outside the Basic Multilingual Plane can therefore be cut at a different place.
- FileList.LoadDownloadedFiles: `mkdirSync` is taken to succeed. A failure there lands in the same `catch` as an unreadable folder and shows no rows.
- DownloadHandler.HandleDownload: `status`, `file_path` and `message` are strings or absent. A non-string `message` is turned into text by `Error` in the source and is not modelled.
- FileList.LoadDownloadedFiles: describes one load running on its own. Two loads started by one `download-complete` are modelled separately (`StatusBanner.TableAfterReplyAsWritten`, see "Findings"). Other overlaps are not modelled, such as a folder selection arriving while a load is still waiting on `parseFile`.
- FileList.MakeRow: the name cell and the delete button's `data-path` are taken to be exactly `Paths.Name(path)` and `path`. The source writes both into unescaped HTML (`frontend/renderer.js:216`, `225`). So an entry name containing `"`, `<` or `&` is outside the model. `a"b.mp3` shows a cut-off row, and `x&amp;y.mp3` is shown as `x&y`.
- FileList.DeleteRow: unlinks the row's own path. The source unlinks the button's HTML-parsed `data-path` (`frontend/renderer.js:296`), which differs for the names above. For `a"b.mp3` in `/m` a confirmed delete unlinks `/m/a`. If that file exists, the wrong file is deleted and the row removed. If not, "Error deleting file" appears. Either way the playing track is not stopped, because the parsed path does not match it (`frontend/renderer.js:300`).
- FileList.DeleteRow: models a delete button with one click listener. After the overlapping loads recorded under "Findings", every delete button present when a load attaches its handlers gets one listener from that load (`frontend/renderer.js:293-294`). So the rows of whichever load finished first carry two listeners. One click on such a row asks for confirmation twice. If both are confirmed, the second `unlinkSync` fails on the file already removed, and "Error deleting file" appears after a delete that succeeded. The listener count is not modelled.
- DownloadHandler.HandleDownload: assumes the service call finishes. `electron-fetch` is called without a timeout (`main.js:70`), so a service that never answers gets no reply, and the banner stays on "Download started...".
- ProgressSocket.Handle: `hasWindow` stands for `mainWindow` being set, which it always is once the first socket opens (`main.js:49`, `59`). A window that was closed while the app kept running (macOS, `main.js:62-66`) is not modelled. There, `webContents.send` in the `close` handler would meet a destroyed window before `setTimeout` runs (`main.js:35-38`), and the reconnects would stop. This depends on Electron's behaviour for destroyed windows.
- The socket events may arrive in any order in the model. The `ws` library's own ordering, such as `close` following `error`, is not assumed.
- Events from a socket that has already been replaced are not modelled.
- Concurrent download requests are not modelled. Each request is handled on its own, as the source does.
- The real `fs`, `electron-store`, `music-metadata`, `electron-fetch` and `ws` calls are parameters or oracles.
- `backend/downloader.py`, `python_scripts/youtube_downloader.py`, `build.js` and `build-scripts/build-python.js`. These wrap the external downloader or package the app.

## Findings

| source | as written | input that shows it | evidently intended | confidence | as-written member | corrected member |
|---|---|---|---|---|---|---|
| frontend/renderer.js:326-328 | A second `download-complete` listener reloads the list, beside the one at lines 53-63. Both loads clear the table before their first `await parseFile(...)`, and then both append every row. | A folder holding `a.mp3` and a successful download: the table shows `a` twice. | Reload once, so each file is shown once and a row can be found by its path. | not executed; high. Every `.mp3` row is appended after an `await`, so the second listener always runs before any row is added. | `StatusBanner.ReplyRepeatsEveryRow`, `StatusBanner.OneFileShownTwice` | `StatusBanner.ReplyKeepsPathsDistinct` |

=== FILE: download_handler.dfy ===
/**
 The main process's `download-audio` handler: it posts the URL and the
 download folder to the local download service and answers the renderer
 with exactly one message, `download-complete` or `download-error`.
 The service call and the parsing of its reply are an oracle: the outcome
 is a parameter.
 */
module DownloadHandler {
  import opened Wrappers
  import Paths
  import FolderSetting

  const ServiceUrl := "http://localhost:5000/download"
  const SuccessStatus := "success"

  /** The message V8 gives when the reply body is JSON `null` and `.status` is read. */
  const NullBodyMessage := "Cannot read properties of null (reading 'status')"

  /** The reply body as `response.json()` yields it: `null`, or a value whose
      `status`, `file_path` and `message` fields are strings or absent (any
      other JSON value reads like an object without these fields). */
  datatype Body = NullBody | ObjectBody(status: Option<string>, filePath: Option<string>, message: Option<string>)

  /** How the request ended: `fetch` rejected, `response.json()` rejected, or a body arrived. */
  datatype FetchOutcome = RequestFailed(error: string) | InvalidJson(error: string) | Received(body: Body)

  /** The JSON body posted to the service. */
  datatype RequestBody = RequestBody(url: string, downloadDir: string)

  /** The messages sent back to the renderer. */
  datatype Reply = DownloadComplete(filePath: Option<string>) | DownloadError(message: string)

  /** One handled request: where it was posted, what was posted, what was answered. */
  datatype Exchange = Exchange(endpoint: string, request: RequestBody, replies: seq<Reply>)

  /** `path.join(__dirname, 'frontend', 'downloads')`. */
  function DownloadDir(appDir: string): string {
    Paths.Join(Paths.Join(appDir, "frontend"), "downloads")
  }

  /** The service reported success: `data.status === 'success'`. */
  predicate Succeeded(outcome: FetchOutcome) {
    outcome.Received? && outcome.body.ObjectBody? && outcome.body.status == Some(SuccessStatus)
  }

  /** `new Error(data.message).message`: an absent message becomes `""`. */
  function ErrorText(message: Option<string>): string {
    match message
    case Some(m) => m
    case None => ""
  }

  /** The message of whatever the handler's `catch` receives. */
  function FailureMessage(outcome: FetchOutcome): string
    requires !Succeeded(outcome)
  {
    match outcome
    case RequestFailed(e) => e
    case InvalidJson(e) => e
    case Received(NullBody) => NullBodyMessage
    case Received(ObjectBody(_, _, message)) => ErrorText(message)
  }

  /** `ipcMain.on("download-audio", ...)` for one request. */
  function HandleDownload(url: string, appDir: string, outcome: FetchOutcome): (x: Exchange)
    ensures x.endpoint == ServiceUrl
    ensures x.request == RequestBody(url, DownloadDir(appDir))
    ensures |x.replies| == 1
    ensures x.replies[0].DownloadComplete? <==> Succeeded(outcome)
    ensures Succeeded(outcome) ==> x.replies[0].filePath == outcome.body.filePath
    ensures outcome.RequestFailed? || outcome.InvalidJson? ==> x.replies[0] == DownloadError(outcome.error)
    ensures outcome == Received(NullBody) ==> x.replies[0] == DownloadError(NullBodyMessage)
    ensures outcome.Received? && outcome.body.ObjectBody? && !Succeeded(outcome) ==>
      x.replies[0] == DownloadError(if outcome.body.message.Some? then outcome.body.message.value else "")
  {
    var request := RequestBody(url, DownloadDir(appDir));
    var reply := if Succeeded(outcome) then DownloadComplete(outcome.body.filePath)
                 else DownloadError(FailureMessage(outcome));
    Exchange(ServiceUrl, request, [reply])
  }

  /** The renderer's default folder is `downloads` beside `renderer.js`, that
      is `<app>/frontend/downloads`: without a stored folder the list shows
      the folder downloads go to. */
  lemma DefaultFolderIsDownloadDir(appDir: string, url: string, outcome: FetchOutcome)
    ensures FolderSetting.ResolveFolder(None, Paths.Join(appDir, "frontend"))
         == HandleDownload(url, appDir, outcome).request.downloadDir
  {
  }

  /** The folder chosen in the renderer never reaches the request: with any
      other folder stored, downloads still go to `<app>/frontend/downloads`,
      which is then not the folder the list shows. */
  lemma SelectedFolderNotUsedForDownload(appDir: string, picked: string, url: string, outcome: FetchOutcome)
    requires picked != "" && picked != DownloadDir(appDir)
    ensures FolderSetting.ResolveFolder(Some(picked), Paths.Join(appDir, "frontend"))
         != HandleDownload(url, appDir, outcome).request.downloadDir
  {
  }
}

=== FILE: duration.dfy ===
/**
 The renderer's `formatDuration`: a whole number of seconds shown as
 `M:SS`, or nothing at all for zero. `ParseDuration` reads such text back;
 the two are inverse on every natural number and every clock text.
 */
module Duration {
  import opened Wrappers
  import opened Text

  const SecondsPerMinute: nat := 60

  /** The text `formatDuration` writes for a positive duration: canonical
      minutes, a colon, two digits of seconds below 60, and not `0:00`. */
  predicate IsClock(t: string) {
    && |t| >= 4
    && t[|t| - 3] == ':'
    && IsCanonicalDecimal(t[..|t| - 3])
    && AllDigits(t[|t| - 2..])
    && DecimalValue(t[|t| - 2..]) < SecondsPerMinute
    && t != "0:00"
  }

  /** The seconds field: `remainingSeconds.toString().padStart(2, "0")`. */
  function SecondsField(secs: nat): (f: string)
    requires secs < SecondsPerMinute
    ensures |f| == 2 && AllDigits(f) && DecimalValue(f) == secs
  {
    DecimalValueOfDecimal(secs);
    var d := Decimal(secs);
    if secs < 10 then
      assert PadStart(d, 2, '0') == ['0'] + d;
      assert DecimalValue(['0'] + d) == DecimalValue(['0']) * 10 + DecimalValue(d);
      PadStart(d, 2, '0')
    else
      PadStart(d, 2, '0')
  }

  /** Minutes, a colon and the two-digit seconds field. */
  function Clock(minutes: nat, secs: nat): string
    requires secs < SecondsPerMinute
  {
    Decimal(minutes) + ":" + SecondsField(secs)
  }

  lemma ClockFields(minutes: nat, secs: nat)
    requires secs < SecondsPerMinute
    ensures var t := Clock(minutes, secs);
      && |t| == |Decimal(minutes)| + 3
      && t[..|t| - 3] == Decimal(minutes)
      && t[|t| - 3] == ':'
      && t[|t| - 2..] == SecondsField(secs)
  {
  }

  /** `formatDuration(seconds)` for whole, non-negative seconds: `""` for
      the falsy 0, otherwise minutes and zero-padded seconds. */
  function FormatDuration(seconds: nat): (r: string)
    ensures r == "" <==> seconds == 0
  {
    if seconds == 0 then "" else Clock(seconds / SecondsPerMinute, seconds % SecondsPerMinute)
  }

  /** A positive duration is written as a clock text. */
  lemma FormatDurationIsClock(seconds: nat)
    requires seconds > 0
    ensures IsClock(FormatDuration(seconds))
  {
    var minutes, secs := seconds / SecondsPerMinute, seconds % SecondsPerMinute;
    DecimalRoundTrip(minutes);
    ClockFields(minutes, secs);
  }

  /** Reads a duration text back into seconds: `""` is 0, `M:SS` is
      `M * 60 + SS`; anything else is rejected. */
  function ParseDuration(t: string): (r: Option<nat>)
    ensures r.Some? && r.value > 0 ==> |t| >= 4 && t[|t| - 3] == ':'
  {
    if t == "" then Some(0)
    else if |t| >= 4 && t[|t| - 3] == ':' then
      match (ParseDecimal(t[..|t| - 3]), ParseDecimal(t[|t| - 2..]))
      case (Some(m), Some(s)) =>
        if s < SecondsPerMinute then Some(m * SecondsPerMinute + s) else None
      case _ => None
    else None
  }

  /** Every duration is recovered from its text, so no two durations share one. */
  lemma FormatThenParse(seconds: nat)
    ensures ParseDuration(FormatDuration(seconds)) == Some(seconds)
  {
    if seconds > 0 {
      DecimalRoundTrip(seconds / SecondsPerMinute);
      ClockFields(seconds / SecondsPerMinute, seconds % SecondsPerMinute);
    }
  }

  /** Every clock text (and the empty text) is the one `formatDuration`
      writes for the duration it denotes. */
  lemma ParseThenFormat(t: string)
    requires t == "" || IsClock(t)
    ensures ParseDuration(t).Some?
    ensures FormatDuration(ParseDuration(t).value) == t
  {
    if t != "" {
      var mm, ss := t[..|t| - 3], t[|t| - 2..];
      assert t == mm + ":" + ss;
      var m, s := DecimalValue(mm), DecimalValue(ss);
      var n := m * SecondsPerMinute + s;
      assert ParseDuration(t) == Some(n);
      ClockIsPositive(t);
      FormatOfParts(n, m, s);
      DecimalOfValue(mm);
      SecondsFieldOfDigits(ss);
      assert Clock(m, s) == mm + ":" + ss;
      assert FormatDuration(n) == t;
    } else {
      assert ParseDuration(t) == Some(0);
    }
  }

  lemma FormatOfParts(n: nat, m: nat, s: nat)
    requires s < SecondsPerMinute && n == m * SecondsPerMinute + s && n > 0
    ensures FormatDuration(n) == Clock(m, s)
  {
    assert n / 60 == m && n % 60 == s;
  }

  lemma ClockIsPositive(t: string)
    requires IsClock(t)
    ensures DecimalValue(t[..|t| - 3]) > 0 || DecimalValue(t[|t| - 2..]) > 0
  {
    var mm, ss := t[..|t| - 3], t[|t| - 2..];
    if DecimalValue(mm) == 0 && DecimalValue(ss) == 0 {
      DecimalOfValue(mm);
      assert mm == "0";
      ZeroDigitsAreZeros(ss);
      assert false;
    }
  }

  lemma ZeroDigitsAreZeros(ss: string)
    requires |ss| == 2 && AllDigits(ss) && DecimalValue(ss) == 0
    ensures ss == "00"
  {
    assert DecimalValue(ss) == DecimalValue(ss[..1]) * 10 + DigitValue(ss[1]);
    assert ss[..1][..0] == [];
  }

  lemma SecondsFieldOfDigits(ss: string)
    requires |ss| == 2 && AllDigits(ss) && DecimalValue(ss) < SecondsPerMinute
    ensures SecondsField(DecimalValue(ss)) == ss
  {
    var s := DecimalValue(ss);
    assert s == DecimalValue(ss[..1]) * 10 + DigitValue(ss[1]);
    assert ss[..1][..0] == [];
    if ss[0] == '0' {
      assert s == DigitValue(ss[1]);
      assert Decimal(s) == [ss[1]];
      assert ss == ['0'] + [ss[1]];
    } else {
      DecimalOfValue(ss);
    }
  }
}

=== FILE: file_list.dfy ===
/**
 The renderer's table of downloaded files (`loadDownloadedFiles`,
 `createRowHTML`) and the delete button's handler. The file system is a
 map from folder path to the folder's entries; `parseFile` from
 `music-metadata` is an oracle that either yields metadata or fails.
 */
module FileList {
  import opened Wrappers
  import Text
  import Paths
  import Duration
  import FolderSetting

  const AudioExtension := ".mp3"

  /** The metadata fields the row template reads; `0` and `""` stand for absent. */
  datatype Metadata = Metadata(durationSeconds: nat, key: string, bpm: string)

  /** The cells `createRowHTML` writes: the visible name and the duration, key
      and bpm cells the template keeps commented out. */
  datatype Cells = Cells(name: string, duration: string, key: string, bpm: string)

  /** A table row. `path` is the row's `data-path`, set directly from the
      joined path. The delete button's `data-path` is taken to be the same,
      which holds only for names without `"`, `<` or `&`: the button is
      written as unescaped HTML. */
  datatype Row = Row(path: string, cells: Cells)

  /** A folder as `fs.readdirSync` sees it: its entry names, or an error. */
  datatype Dir = Entries(names: seq<string>) | Unreadable(reason: string)

  type FileSystem = map<string, Dir>

  /** What a load produces: the folder read, the rows shown, the file system
      afterwards, whether the folder had to be created, and the error logged. */
  datatype Listing = Listing(folder: string, rows: seq<Row>, fs: FileSystem, created: bool, failure: Option<string>)

  /** A directory entry name: never empty and never holding a separator. */
  predicate IsEntryName(f: string) {
    f != "" && Paths.HasNoSeparator(f)
  }

  predicate IsAudio(f: string) {
    Text.EndsWith(f, AudioExtension)
  }

  /** `files.filter((file) => file.endsWith(".mp3"))`. */
  function AudioFiles(names: seq<string>): (files: seq<string>)
    ensures |files| <= |names|
    ensures forall i :: 0 <= i < |files| ==> IsAudio(files[i])
    ensures forall i :: 0 <= i < |files| ==> files[i] in names
  {
    if names == [] then []
    else (if IsAudio(names[0]) then [names[0]] else []) + AudioFiles(names[1..])
  }

  /** The listing holds exactly the `.mp3` entries, both ways round. */
  lemma {:induction false} AudioFilesMembership(names: seq<string>, f: string)
    ensures f in AudioFiles(names) <==> f in names && IsAudio(f)
    decreases |names|
  {
    if names != [] {
      AudioFilesMembership(names[1..], f);
      assert names == [names[0]] + names[1..];
    }
  }

  /** Filtering keeps directory order: the files of a concatenation are the
      files of the first part followed by those of the second. */
  lemma {:induction false} AudioFilesAppend(a: seq<string>, b: seq<string>)
    ensures AudioFiles(a + b) == AudioFiles(a) + AudioFiles(b)
    decreases |a|
  {
    if a != [] {
      assert (a + b)[1..] == a[1..] + b;
      AudioFilesAppend(a[1..], b);
    } else {
      assert a + b == b;
    }
  }

  /** `createRowHTML(filePath, metadata)`; a failed parse gives empty cells. */
  function MakeRow(path: string, metadata: Option<Metadata>): (row: Row)
    ensures row.path == path && row.cells.name == Paths.Name(path)
    ensures metadata.None? ==> row.cells == Cells(Paths.Name(path), "", "", "")
  {
    match metadata
    case None => Row(path, Cells(Paths.Name(path), "", "", ""))
    case Some(m) => Row(path, Cells(Paths.Name(path), Duration.FormatDuration(m.durationSeconds), m.key, m.bpm))
  }

  lemma AudioExtensionDot(f: string)
    requires IsAudio(f)
    ensures Paths.LastDot(f) == Some(|f| - |AudioExtension|)
  {
    var d := |f| - |AudioExtension|;
    assert f[d..] == AudioExtension;
    assert f[d] == '.' && f[d + 1] == 'm' && f[d + 2] == 'p' && f[d + 3] == '3';
    forall j | d < j < |f|
      ensures f[j] != '.'
    {
      assert j == d + 1 || j == d + 2 || j == d + 3;
    }
    Paths.LastDotAt(f, d);
  }

  /** The name a row shows for an `.mp3` entry is the entry without `.mp3`
      (a file called just `.mp3` has no extension and keeps its name). */
  lemma AudioRowName(folder: string, f: string)
    requires IsEntryName(f) && IsAudio(f)
    ensures Paths.Name(Paths.Join(folder, f)) == if f == AudioExtension then f else f[..|f| - |AudioExtension|]
  {
    Paths.NameOfJoin(folder, f);
    AudioExtensionDot(f);
    var d := |f| - |AudioExtension|;
    if d == 0 {
      assert f == AudioExtension;
      assert Paths.Extension(f) == "";
    } else {
      assert f[d..] == AudioExtension;
      assert f != "..";
      assert Paths.Extension(f) == f[d..];
    }
  }

  /** `row` is the row for entry `file` of `folder`: it carries the joined
      path and the file's name, and empty metadata cells when parsing failed. */
  predicate IsRowFor(row: Row, folder: string, file: string, parseFile: string -> Option<Metadata>) {
    && row.path == Paths.Join(folder, file)
    && row.cells.name == Paths.Name(row.path)
    && (parseFile(row.path).None? ==> row.cells == Cells(row.cells.name, "", "", ""))
  }

  /** The rows of one folder's `.mp3` files, in order: the `for` loop of
      `loadDownloadedFiles`, where a failed `parseFile` still adds the row. */
  method ListRows(folder: string, files: seq<string>, parseFile: string -> Option<Metadata>)
    returns (rows: seq<Row>)
    ensures |rows| == |files|
    ensures forall k :: 0 <= k < |files| ==> IsRowFor(rows[k], folder, files[k], parseFile)
  {
    rows := [];
    var i := 0;
    while i < |files|
      invariant 0 <= i <= |files|
      invariant |rows| == i
      invariant forall k :: 0 <= k < i ==> IsRowFor(rows[k], folder, files[k], parseFile)
    {
      var path := Paths.Join(folder, files[i]);
      var row := MakeRow(path, parseFile(path));
      assert IsRowFor(row, folder, files[i], parseFile);
      rows := rows + [row];
      i := i + 1;
    }
  }

  /** `loadDownloadedFiles`: resolve the folder; create it and show nothing if
      it is missing; log the error and show nothing if it cannot be read;
      otherwise the rows of its `.mp3` entries. */
  method LoadDownloadedFiles(stored: Option<string>, scriptDir: string, fs: FileSystem,
                             parseFile: string -> Option<Metadata>)
    returns (listing: Listing)
    ensures listing.folder == FolderSetting.ResolveFolder(stored, scriptDir)
    ensures listing.folder !in fs ==>
      listing.created && listing.rows == [] && listing.failure == None
      && listing.fs == fs[listing.folder := Entries([])]
    ensures listing.folder in fs ==> !listing.created && listing.fs == fs
    ensures listing.folder in fs && fs[listing.folder].Unreadable? ==>
      listing.rows == [] && listing.failure == Some(fs[listing.folder].reason)
    ensures listing.folder in fs && fs[listing.folder].Entries? ==>
      var files := AudioFiles(fs[listing.folder].names);
      && listing.failure == None
      && |listing.rows| == |files|
      && forall k :: 0 <= k < |files| ==> IsRowFor(listing.rows[k], listing.folder, files[k], parseFile)
    ensures listing.folder in fs && fs[listing.folder].Entries? && IsDirectoryListing(fs[listing.folder].names) ==>
      DistinctPaths(listing.rows)
  {
    var folder := FolderSetting.ResolveFolder(stored, scriptDir);
    if folder !in fs {
      return Listing(folder, [], fs[folder := Entries([])], true, None);
    }
    match fs[folder]
    case Unreadable(reason) =>
      return Listing(folder, [], fs, false, Some(reason));
    case Entries(names) =>
      var rows := ListRows(folder, AudioFiles(names), parseFile);
      if IsDirectoryListing(names) {
        AudioFilesOfListing(names);
        ListedPathsDistinct(folder, AudioFiles(names), rows);
      }
      return Listing(folder, rows, fs, false, None);
  }

  /** The table and the track loaded in the mini player (`currentTrackData.filePath`). */
  datatype Table = Table(rows: seq<Row>, playing: Option<string>)

  /** The observable steps of a delete, in the order they happen. */
  datatype DeleteStep = StopPlayer | Unlink(path: string) | RemoveRow(path: string) | ReportError

  datatype Deletion = Deletion(table: Table, steps: seq<DeleteStep>)

  /** The delete button of row `index`. `confirmed` is the answer to the
      confirmation dialog and `unlinkSucceeds` whether `fs.unlinkSync` returns. */
  function DeleteRow(t: Table, index: nat, confirmed: bool, unlinkSucceeds: bool): (d: Deletion)
    requires index < |t.rows|
    ensures !confirmed ==> d == Deletion(t, [])
    ensures confirmed ==> Unlink(t.rows[index].path) in d.steps
    ensures StopPlayer in d.steps <==> confirmed && t.playing == Some(t.rows[index].path)
    ensures StopPlayer in d.steps ==> d.steps[0] == StopPlayer && d.steps[1] == Unlink(t.rows[index].path)
    ensures d.table.playing == if StopPlayer in d.steps then None else t.playing
    ensures confirmed && unlinkSucceeds ==> d.table.rows == t.rows[..index] + t.rows[index + 1..]
    ensures !unlinkSucceeds ==> d.table.rows == t.rows
    ensures confirmed && !unlinkSucceeds ==> ReportError in d.steps && RemoveRow(t.rows[index].path) !in d.steps
    ensures ReportError in d.steps <==> confirmed && !unlinkSucceeds
    ensures RemoveRow(t.rows[index].path) in d.steps <==> confirmed && unlinkSucceeds
    ensures confirmed ==> |d.steps| >= 2 && d.steps[|d.steps| - 2] == Unlink(t.rows[index].path)
    ensures confirmed ==> |d.steps| == if t.playing == Some(t.rows[index].path) then 3 else 2
    ensures confirmed ==> d.steps[|d.steps| - 1] == if unlinkSucceeds then RemoveRow(t.rows[index].path) else ReportError
  {
    if !confirmed then Deletion(t, [])
    else
      var path := t.rows[index].path;
      var stops := t.playing == Some(path);
      var stop := if stops then [StopPlayer] else [];
      var playing := if stops then None else t.playing;
      if unlinkSucceeds then
        Deletion(Table(t.rows[..index] + t.rows[index + 1..], playing), stop + [Unlink(path), RemoveRow(path)])
      else
        Deletion(Table(t.rows, playing), stop + [Unlink(path), ReportError])
  }

  predicate DistinctPaths(rows: seq<Row>) {
    forall i, j :: 0 <= i < j < |rows| ==> rows[i].path != rows[j].path
  }

  /** A successful delete of a table with distinct paths leaves every other
      row and no row for the deleted file. */
  lemma DeletedFileLeavesTable(t: Table, index: nat)
    requires index < |t.rows| && DistinctPaths(t.rows)
    ensures var rows := DeleteRow(t, index, true, true).table.rows;
      && multiset(rows) + multiset{t.rows[index]} == multiset(t.rows)
      && forall k :: 0 <= k < |rows| ==> rows[k].path != t.rows[index].path
  {
    var rows := DeleteRow(t, index, true, true).table.rows;
    assert t.rows == t.rows[..index] + [t.rows[index]] + t.rows[index + 1..];
    forall k | 0 <= k < |rows|
      ensures rows[k].path != t.rows[index].path
    {
      if k < index {
        assert rows[k] == t.rows[k];
      } else {
        assert rows[k] == t.rows[k + 1];
      }
    }
  }

  /** What `fs.readdirSync` returns: entry names, no two alike. */
  predicate IsDirectoryListing(names: seq<string>) {
    && (forall i :: 0 <= i < |names| ==> IsEntryName(names[i]))
    && (forall i, j :: 0 <= i < j < |names| ==> names[i] != names[j])
  }

  /** The `.mp3` entries of a directory listing are again a directory listing. */
  lemma {:induction false} AudioFilesOfListing(names: seq<string>)
    requires IsDirectoryListing(names)
    ensures IsDirectoryListing(AudioFiles(names))
    decreases |names|
  {
    if names != [] {
      var tail := names[1..];
      assert IsDirectoryListing(tail) by {
        forall i, j | 0 <= i < j < |tail|
          ensures tail[i] != tail[j]
        {
          assert tail[i] == names[i + 1] && tail[j] == names[j + 1];
        }
      }
      AudioFilesOfListing(tail);
      var rest := AudioFiles(tail);
      assert names[0] !in tail by {
        forall i | 0 <= i < |tail|
          ensures tail[i] != names[0]
        {
          assert tail[i] == names[i + 1];
        }
      }
      if IsAudio(names[0]) {
        var files := AudioFiles(names);
        assert files == [names[0]] + rest;
        forall i, j | 0 <= i < j < |files|
          ensures files[i] != files[j]
        {
          assert files[j] == rest[j - 1];
          if i > 0 {
            assert files[i] == rest[i - 1];
          }
        }
      }
    }
  }

  /** Distinct entries of one folder give rows with distinct paths. */
  lemma ListedPathsDistinct(folder: string, files: seq<string>, rows: seq<Row>)
    requires IsDirectoryListing(files) && |rows| == |files|
    requires forall k :: 0 <= k < |files| ==> rows[k].path == Paths.Join(folder, files[k])
    ensures DistinctPaths(rows)
  {
    forall i, j | 0 <= i < j < |rows|
      ensures rows[i].path != rows[j].path
    {
      Paths.JoinBaseName(folder, files[i]);
      Paths.JoinBaseName(folder, files[j]);
    }
  }

  /** Two loads started by the same event, appending into one table. Each
      clears the table before its first `await parseFile(...)`, so both
      clears happen before either appends; the rows then arrive in the order
      the metadata reads finish: `first[k]` tells whether the k-th row
      appended is the first load's (once `first` runs out, the first load's
      remaining rows come first). */
  function MergeLoads(a: seq<Row>, b: seq<Row>, first: seq<bool>): (t: seq<Row>)
    ensures |t| == |a| + |b|
    ensures multiset(t) == multiset(a) + multiset(b)
    decreases |a| + |b|
  {
    if a == [] then b
    else if b == [] then a
    else if first == [] || first[0] then
      assert a == [a[0]] + a[1..];
      [a[0]] + MergeLoads(a[1..], b, if first == [] then [] else first[1..])
    else
      assert b == [b[0]] + b[1..];
      [b[0]] + MergeLoads(a, b[1..], first[1..])
  }

  /** In a table with distinct paths no row occurs twice. */
  lemma {:induction false} DistinctRowsOccurOnce(t: seq<Row>, r: Row)
    requires DistinctPaths(t)
    ensures multiset(t)[r] <= 1
    decreases |t|
  {
    if t != [] {
      var rest := t[1..];
      assert t == [t[0]] + rest;
      assert DistinctPaths(rest) by {
        forall i, j | 0 <= i < j < |rest|
          ensures rest[i].path != rest[j].path
        {
          assert rest[i] == t[i + 1] && rest[j] == t[j + 1];
        }
      }
      DistinctRowsOccurOnce(rest, r);
      if t[0] == r {
        assert r !in rest by {
          forall i | 0 <= i < |rest|
            ensures rest[i] != r
          {
            assert rest[i] == t[i + 1];
          }
        }
      }
    }
  }
}

=== FILE: folder_setting.dfy ===
/**
 The renderer's download-folder setting: the `downloadFolder` key of the
 preference store, the folder it resolves to, what selecting and resetting
 do to it, and the shortened form shown in the folder label.
 */
module FolderSetting {
  import opened Wrappers
  import Paths

  const DownloadsSubfolder := "downloads"
  const MaxShownChars: nat := 50
  const Ellipsis := "..."
  const LabelPrefix := "Current Folder: "

  /** `path.join(__dirname, "downloads")`, the folder used when none is stored. */
  function DefaultFolder(scriptDir: string): string {
    Paths.Join(scriptDir, DownloadsSubfolder)
  }

  /** The stored value counts only when it is a non-empty string: JavaScript's
      `||` treats both a missing key and `""` as false. */
  predicate IsSet(stored: Option<string>) {
    stored.Some? && stored.value != ""
  }

  /** `store.get("downloadFolder") || path.join(__dirname, "downloads")`. */
  function ResolveFolder(stored: Option<string>, scriptDir: string): (folder: string)
    ensures IsSet(stored) ==> folder == stored.value
    ensures !IsSet(stored) ==> folder == DefaultFolder(scriptDir)
  {
    if IsSet(stored) then stored.value else DefaultFolder(scriptDir)
  }

  /** The stored setting after a folder event, and whether the label and the
      file list are refreshed. */
  datatype FolderChange = FolderChange(stored: Option<string>, refreshed: bool)

  /** The `folder-selected` handler: a truthy path is stored and the view
      refreshed; `null` or `""` (a cancelled dialog) changes nothing. */
  function SelectFolder(stored: Option<string>, picked: Option<string>): (c: FolderChange)
    ensures c.refreshed <==> IsSet(picked)
    ensures c.stored == if IsSet(picked) then picked else stored
  {
    if IsSet(picked) then FolderChange(picked, true) else FolderChange(stored, false)
  }

  /** The reset button: the key is deleted and the view refreshed. */
  function ResetFolder(stored: Option<string>): (c: FolderChange)
    ensures c.stored.None? && c.refreshed
  {
    FolderChange(None, true)
  }

  /** A non-empty selection is the folder the view uses from then on. */
  lemma SelectionTakesEffect(stored: Option<string>, picked: string, scriptDir: string)
    requires picked != ""
    ensures ResolveFolder(SelectFolder(stored, Some(picked)).stored, scriptDir) == picked
  {
  }

  /** A cancelled selection leaves the folder in use as it was. */
  lemma CancelledSelectionKeepsFolder(stored: Option<string>, picked: Option<string>, scriptDir: string)
    requires !IsSet(picked)
    ensures ResolveFolder(SelectFolder(stored, picked).stored, scriptDir) == ResolveFolder(stored, scriptDir)
  {
  }

  /** After a reset the default folder is in use, whatever was selected before. */
  lemma ResetRestoresDefault(stored: Option<string>, scriptDir: string)
    ensures ResolveFolder(ResetFolder(stored).stored, scriptDir) == DefaultFolder(scriptDir)
  {
  }

  /** The folder as shown in the label: unchanged up to 50 characters,
      otherwise `...` and its last 50 characters. */
  function ShownFolder(folder: string): (shown: string)
    ensures |folder| <= MaxShownChars ==> shown == folder
    ensures |folder| > MaxShownChars ==> |shown| == |Ellipsis| + MaxShownChars
    ensures |folder| > MaxShownChars ==>
      shown[..|Ellipsis|] == Ellipsis && shown[|Ellipsis|..] == folder[|folder| - MaxShownChars..]
  {
    if |folder| > MaxShownChars then Ellipsis + folder[|folder| - MaxShownChars..] else folder
  }

  /** The shown text never exceeds 53 characters and always ends with the
      folder's last characters (all of them when it fits). */
  lemma ShownFolderIsTail(folder: string)
    ensures var shown := ShownFolder(folder);
      var kept := if |folder| <= MaxShownChars then |folder| else MaxShownChars;
      && |shown| <= |Ellipsis| + MaxShownChars
      && |shown| >= kept
      && shown[|shown| - kept..] == folder[|folder| - kept..]
  {
  }

  /** Shortening an already shortened folder changes nothing. */
  lemma ShownFolderIdempotent(folder: string)
    ensures ShownFolder(ShownFolder(folder)) == ShownFolder(folder)
  {
  }

  /** The label text and the select button's tooltip. */
  datatype FolderLabel = FolderLabel(text: string, tooltip: string)

  /** `updateCurrentFolderDisplay`: the label shows the shortened folder in
      use, the tooltip the full one. */
  function CurrentFolderLabel(stored: Option<string>, scriptDir: string): (l: FolderLabel)
    ensures l.text == LabelPrefix + ShownFolder(ResolveFolder(stored, scriptDir))
    ensures l.tooltip == LabelPrefix + ResolveFolder(stored, scriptDir)
    ensures |l.text| <= |LabelPrefix| + |Ellipsis| + MaxShownChars
    ensures |ResolveFolder(stored, scriptDir)| <= MaxShownChars ==> l.text == l.tooltip
  {
    var folder := ResolveFolder(stored, scriptDir);
    FolderLabel(LabelPrefix + ShownFolder(folder), LabelPrefix + folder)
  }

  /** After a folder is selected the tooltip names it in full and the label
      ends with as much of it as fits: all of it up to 50 characters, its
      last 50 characters otherwise. */
  lemma LabelAfterSelection(stored: Option<string>, picked: string, scriptDir: string)
    requires picked != ""
    ensures var l := CurrentFolderLabel(SelectFolder(stored, Some(picked)).stored, scriptDir);
      var kept := if |picked| <= MaxShownChars then |picked| else MaxShownChars;
      && l.tooltip == LabelPrefix + picked
      && |l.text| >= kept
      && l.text[|l.text| - kept..] == picked[|picked| - kept..]
  {
  }
}

=== FILE: paths.dfy ===
/**
 The two pieces of Node's POSIX `path` module the core relies on:
 `path.join` of a folder and one entry name, and `path.parse(p).name`,
 the last path component without its extension.
 */
module Paths {
  import opened Wrappers

  const Separator: char := '/'

  predicate HasNoSeparator(s: string) {
    forall i :: 0 <= i < |s| ==> s[i] != Separator
  }

  /** `path.join(dir, name)` for a folder and one component, without the
      normalisation of `.`, `..` and repeated separators. */
  function Join(dir: string, name: string): string
  {
    if dir == "" then name
    else if name == "" then dir
    else if dir[|dir| - 1] == Separator then dir + name
    else dir + [Separator] + name
  }

  /** The path with its trailing separators removed. */
  function TrimTrailingSeparators(p: string): (r: string)
    ensures |r| <= |p| && r == p[..|r|]
    ensures r == "" || r[|r| - 1] != Separator
    ensures forall i :: |r| <= i < |p| ==> p[i] == Separator
  {
    if p != "" && p[|p| - 1] == Separator then TrimTrailingSeparators(p[..|p| - 1]) else p
  }

  /** The longest separator-free suffix of `p`. */
  function AfterLastSeparator(p: string): (r: string)
    ensures HasNoSeparator(r)
    ensures |r| <= |p|
    ensures |r| < |p| ==> p[|p| - |r| - 1] == Separator
  {
    if p == "" || p[|p| - 1] == Separator then ""
    else AfterLastSeparator(p[..|p| - 1]) + [p[|p| - 1]]
  }

  /** `path.basename(p)`: the last component, trailing separators ignored. */
  function BaseName(p: string): string {
    AfterLastSeparator(TrimTrailingSeparators(p))
  }

  /** Position of the last `.` in `s`, if any. */
  function LastDot(s: string): (r: Option<nat>)
    ensures r.Some? ==> r.value < |s| && s[r.value] == '.'
    ensures r.Some? ==> forall j :: r.value < j < |s| ==> s[j] != '.'
    ensures r.None? ==> forall j :: 0 <= j < |s| ==> s[j] != '.'
  {
    if s == "" then None
    else if s[|s| - 1] == '.' then Some(|s| - 1)
    else LastDot(s[..|s| - 1])
  }

  lemma LastDotAt(s: string, d: nat)
    requires d < |s| && s[d] == '.'
    requires forall j :: d < j < |s| ==> s[j] != '.'
    ensures LastDot(s) == Some(d)
  {
  }

  /** The extension Node finds in a base name: from the last dot on, unless
      that dot opens the name (`.bashrc`) or the name is `..`. */
  function Extension(base: string): (ext: string)
    ensures |ext| <= |base|
    ensures ext != "" ==> ext[0] == '.' && |ext| < |base|
    ensures forall j :: 0 < j < |ext| ==> ext[j] != '.'
  {
    match LastDot(base)
    case None => ""
    case Some(d) => if d == 0 || base == ".." then "" else base[d..]
  }

  /** A base name without its extension. */
  function Stem(base: string): (stem: string)
    ensures stem + Extension(base) == base
    ensures base != "" ==> stem != ""
  {
    match LastDot(base)
    case None => base
    case Some(d) =>
      if d == 0 || base == ".." then base
      else
        assert base[..d] + base[d..] == base;
        base[..d]
  }

  /** `path.parse(p).name`: the last component without its extension. */
  function Name(p: string): string {
    Stem(BaseName(p))
  }

  lemma {:induction false} AfterLastSeparatorOfAppend(a: string, f: string)
    requires a == "" || a[|a| - 1] == Separator
    requires HasNoSeparator(f)
    ensures AfterLastSeparator(a + f) == f
    decreases |f|
  {
    if f != "" {
      var g := f[..|f| - 1];
      var c := f[|f| - 1];
      assert f == g + [c];
      assert a + f == (a + g) + [c];
      assert c != Separator;
      AfterLastSeparatorOfAppend(a, g);
      calc {
        AfterLastSeparator(a + f);
        AfterLastSeparator((a + g) + [c]);
        { assert ((a + g) + [c])[..|a + g|] == a + g; }
        AfterLastSeparator(a + g) + [c];
      }
    } else {
      assert a + f == a;
    }
  }

  /** Joining a folder with a separator-free name puts that name last. */
  lemma JoinBaseName(dir: string, f: string)
    requires f != "" && HasNoSeparator(f)
    ensures BaseName(Join(dir, f)) == f
  {
    var p := Join(dir, f);
    assert p[|p| - 1] == f[|f| - 1];
    if dir == "" {
      AfterLastSeparatorOfAppend("", f);
      assert "" + f == f;
    } else if dir[|dir| - 1] == Separator {
      AfterLastSeparatorOfAppend(dir, f);
    } else {
      AfterLastSeparatorOfAppend(dir + [Separator], f);
    }
  }

  /** The name of a joined entry is computed from the entry alone. */
  lemma NameOfJoin(dir: string, f: string)
    requires f != "" && HasNoSeparator(f)
    ensures Name(Join(dir, f)) == Stem(f)
  {
    JoinBaseName(dir, f);
  }
}

=== FILE: progress_socket.dfy ===
/**
 The main process's progress feed (`setupWebSocket`): a socket to the
 local service whose events are relayed to the window, and which is
 reopened 5 seconds after every close, without limit. The handlers are a
 step function from the channel and one event to the next channel and the
 effects in the order the handler performs them; the socket itself, the
 timer and `JSON.parse` are outside the model (a frame arrives already
 decoded or with the parser's error message).
 */
module ProgressSocket {

  const Endpoint := "ws://localhost:8000/ws"
  const HandshakeTimeoutMs: nat := 1000
  const RetryDelayMs: nat := 5000
  const ConnectedStatus := "connected"
  const DisconnectedStatus := "disconnected"

  datatype Connection = Connecting | Connected | Disconnected

  /** An inbound frame: the decoded progress value, or the parse error. */
  datatype Frame = Decoded(progress: string) | Malformed(reason: string)

  /** The socket events, and `RetryDue`: the reconnect timer firing. */
  datatype Event = Opened | Received(frame: Frame) | SocketFailed(message: string) | Closed | RetryDue

  /** `websocket-message`, `websocket-error` and `websocket-status` sent to the window. */
  datatype WindowMessage = ProgressMessage(progress: string) | ErrorMessage(message: string) | StatusMessage(status: string)

  /** Sending to the window, arming the reconnect timer, opening a socket. */
  datatype Effect = Send(message: WindowMessage) | ScheduleRetry(delayMs: nat) | Connect(endpoint: string, handshakeTimeoutMs: nat)

  /** `hasWindow` is whether `mainWindow` is set; `pendingRetries` counts armed timers. */
  datatype Channel = Channel(connection: Connection, hasWindow: bool, pendingRetries: nat)

  datatype Step = Step(next: Channel, effects: seq<Effect>)

  /** `mainWindow.webContents.send(...)` behind the `if (mainWindow)` guard. */
  function ToWindow(c: Channel, m: WindowMessage): seq<Effect> {
    if c.hasWindow then [Send(m)] else []
  }

  /** The number of reconnect timers armed by a run of effects. */
  function Retries(effects: seq<Effect>): nat {
    if effects == [] then 0
    else (if effects[0].ScheduleRetry? then 1 else 0) + Retries(effects[1..])
  }

  /** The number of sockets opened by a run of effects. */
  function Connects(effects: seq<Effect>): nat {
    if effects == [] then 0
    else (if effects[0].Connect? then 1 else 0) + Connects(effects[1..])
  }

  /** The messages a run of effects sends to the window, in order. */
  function Sent(effects: seq<Effect>): seq<WindowMessage> {
    if effects == [] then []
    else (if effects[0].Send? then [effects[0].message] else []) + Sent(effects[1..])
  }

  /** The progress values forwarded to the window, in order. */
  function Forwarded(effects: seq<Effect>): seq<string> {
    if effects == [] then []
    else (if effects[0].Send? && effects[0].message.ProgressMessage? then [effects[0].message.progress] else [])
         + Forwarded(effects[1..])
  }

  /** The number of `close` events in a run of events. */
  function Closes(events: seq<Event>): nat {
    if events == [] then 0 else (if events[0].Closed? then 1 else 0) + Closes(events[1..])
  }

  /** The decoded progress values of a run of events, in arrival order. */
  function DecodedProgress(events: seq<Event>): seq<string> {
    if events == [] then []
    else (if events[0].Received? && events[0].frame.Decoded? then [events[0].frame.progress] else [])
         + DecodedProgress(events[1..])
  }

  /** `setupWebSocket()` as first called when the app is ready. */
  function Start(hasWindow: bool): (s: Step)
    ensures s.next.connection == Connecting && s.next.pendingRetries == 0
    ensures s.effects == [Connect(Endpoint, HandshakeTimeoutMs)]
    ensures Connects(s.effects) == 1 && Retries(s.effects) == 0 && Sent(s.effects) == []
  {
    Step(Channel(Connecting, hasWindow, 0), [Connect(Endpoint, HandshakeTimeoutMs)])
  }

  /** The four `ws.on(...)` handlers, and the timer that calls `setupWebSocket` again. */
  function Handle(c: Channel, e: Event): (s: Step)
    ensures s.next.hasWindow == c.hasWindow
    ensures Retries(s.effects) == if e.Closed? then 1 else 0
    ensures forall i :: 0 <= i < |s.effects| && s.effects[i].ScheduleRetry? ==> s.effects[i].delayMs == RetryDelayMs
    ensures e.Closed? ==> s.next.connection == Disconnected && s.next.pendingRetries == c.pendingRetries + 1
    ensures e.Opened? ==> s.next == c.(connection := Connected)
    ensures c.hasWindow && e.Closed? ==> s.effects == [Send(StatusMessage(DisconnectedStatus)), ScheduleRetry(RetryDelayMs)]
    ensures e.Received? || e.SocketFailed? ==> s.next == c
    ensures !c.hasWindow ==> Sent(s.effects) == []
    ensures c.hasWindow && e.Received? && e.frame.Malformed? ==> Sent(s.effects) == [ErrorMessage(e.frame.reason)]
    ensures c.hasWindow && e.Closed? ==> Sent(s.effects) == [StatusMessage(DisconnectedStatus)]
    ensures c.hasWindow && e.Opened? ==> Sent(s.effects) == [StatusMessage(ConnectedStatus)]
    ensures c.hasWindow && e.SocketFailed? ==> Sent(s.effects) == [ErrorMessage(e.message)]
    ensures c.hasWindow && e.Received? && e.frame.Decoded? ==> Sent(s.effects) == [ProgressMessage(e.frame.progress)]
    ensures e.RetryDue? && c.pendingRetries > 0 ==>
      s.next == Channel(Connecting, c.hasWindow, c.pendingRetries - 1)
      && s.effects == [Connect(Endpoint, HandshakeTimeoutMs)]
    ensures e.RetryDue? && c.pendingRetries == 0 ==> s == Step(c, [])
    ensures Connects(s.effects) == if e.RetryDue? && c.pendingRetries > 0 then 1 else 0
  {
    match e
    case Opened =>
      Step(c.(connection := Connected), ToWindow(c, StatusMessage(ConnectedStatus)))
    case Received(Decoded(progress)) =>
      Step(c, ToWindow(c, ProgressMessage(progress)))
    case Received(Malformed(reason)) =>
      Step(c, ToWindow(c, ErrorMessage(reason)))
    case SocketFailed(message) =>
      Step(c, ToWindow(c, ErrorMessage(message)))
    case Closed =>
      var retry := [ScheduleRetry(RetryDelayMs)];
      assert Sent(retry) == [] && Retries(retry) == 1 && Connects(retry) == 0 by {
        assert retry[1..] == [];
      }
      var effects := ToWindow(c, StatusMessage(DisconnectedStatus)) + retry;
      assert c.hasWindow ==> effects[1..] == retry;
      Step(Channel(Disconnected, c.hasWindow, c.pendingRetries + 1), effects)
    case RetryDue =>
      if c.pendingRetries > 0 then
        Step(Channel(Connecting, c.hasWindow, c.pendingRetries - 1), [Connect(Endpoint, HandshakeTimeoutMs)])
      else
        Step(c, [])
  }

  /** The channel after a run of events, with every effect in order. */
  function Run(c: Channel, events: seq<Event>): (s: Step)
    decreases |events|
  {
    if events == [] then Step(c, [])
    else
      var first := Handle(c, events[0]);
      var rest := Run(first.next, events[1..]);
      Step(rest.next, first.effects + rest.effects)
  }

  lemma {:induction false} RetriesAppend(a: seq<Effect>, b: seq<Effect>)
    ensures Retries(a + b) == Retries(a) + Retries(b)
    decreases |a|
  {
    if a == [] {
      assert a + b == b;
    } else {
      assert (a + b)[0] == a[0] && (a + b)[1..] == a[1..] + b;
      RetriesAppend(a[1..], b);
    }
  }

  lemma {:induction false} ConnectsAppend(a: seq<Effect>, b: seq<Effect>)
    ensures Connects(a + b) == Connects(a) + Connects(b)
    decreases |a|
  {
    if a == [] {
      assert a + b == b;
    } else {
      assert (a + b)[0] == a[0] && (a + b)[1..] == a[1..] + b;
      ConnectsAppend(a[1..], b);
    }
  }

  lemma {:induction false} SentAppend(a: seq<Effect>, b: seq<Effect>)
    ensures Sent(a + b) == Sent(a) + Sent(b)
    decreases |a|
  {
    if a == [] {
      assert a + b == b;
    } else {
      assert (a + b)[0] == a[0] && (a + b)[1..] == a[1..] + b;
      SentAppend(a[1..], b);
    }
  }

  lemma {:induction false} ForwardedAppend(a: seq<Effect>, b: seq<Effect>)
    ensures Forwarded(a + b) == Forwarded(a) + Forwarded(b)
    decreases |a|
  {
    if a == [] {
      assert a + b == b;
    } else {
      assert (a + b)[0] == a[0] && (a + b)[1..] == a[1..] + b;
      ForwardedAppend(a[1..], b);
    }
  }

  /** The four counters distribute over concatenation of effects. */
  lemma CountsAppend(a: seq<Effect>, b: seq<Effect>)
    ensures Retries(a + b) == Retries(a) + Retries(b)
    ensures Connects(a + b) == Connects(a) + Connects(b)
    ensures Sent(a + b) == Sent(a) + Sent(b)
    ensures Forwarded(a + b) == Forwarded(a) + Forwarded(b)
  {
    RetriesAppend(a, b);
    ConnectsAppend(a, b);
    SentAppend(a, b);
    ForwardedAppend(a, b);
  }

  /** Every close arms exactly one reconnect timer and nothing else does:
      over any run, timers armed equal closes seen, with no upper bound. */
  lemma {:induction false} RetryPerClose(c: Channel, events: seq<Event>)
    ensures Retries(Run(c, events).effects) == Closes(events)
    decreases |events|
  {
    if events != [] {
      var first := Handle(c, events[0]);
      RetryPerClose(first.next, events[1..]);
      CountsAppend(first.effects, Run(first.next, events[1..]).effects);
    }
  }

  /** With a window, the decoded frames reach it as `websocket-message`, all
      of them and in arrival order. */
  lemma {:induction false} ProgressInArrivalOrder(c: Channel, events: seq<Event>)
    requires c.hasWindow
    ensures Forwarded(Run(c, events).effects) == DecodedProgress(events)
    decreases |events|
  {
    if events != [] {
      var first := Handle(c, events[0]);
      ProgressInArrivalOrder(first.next, events[1..]);
      CountsAppend(first.effects, Run(first.next, events[1..]).effects);
    }
  }

  /** Without a window nothing is sent, but every close still arms its timer. */
  lemma {:induction false} SilentWithoutWindow(c: Channel, events: seq<Event>)
    requires !c.hasWindow
    ensures Sent(Run(c, events).effects) == []
    ensures Retries(Run(c, events).effects) == Closes(events)
    decreases |events|
  {
    RetryPerClose(c, events);
    if events != [] {
      var first := Handle(c, events[0]);
      SilentWithoutWindow(first.next, events[1..]);
      CountsAppend(first.effects, Run(first.next, events[1..]).effects);
    }
  }

  /** Frames and socket errors, well-formed or not, never change the
      connection and never arm a timer or open a socket. */
  lemma {:induction false} MessagesKeepConnection(c: Channel, events: seq<Event>)
    requires forall i :: 0 <= i < |events| ==> events[i].Received? || events[i].SocketFailed?
    ensures Run(c, events).next == c
    ensures Retries(Run(c, events).effects) == 0 && Connects(Run(c, events).effects) == 0
    decreases |events|
  {
    if events != [] {
      var first := Handle(c, events[0]);
      MessagesKeepConnection(first.next, events[1..]);
      CountsAppend(first.effects, Run(first.next, events[1..]).effects);
    }
  }

  /** `n` close/timer cycles. */
  function Outages(n: nat): (events: seq<Event>)
    ensures |events| == 2 * n
  {
    if n == 0 then [] else [Closed, RetryDue] + Outages(n - 1)
  }

  /** The channel reconnects after every outage, however many there are:
      after `n` of them it has armed `n` timers, opened `n` sockets and is
      connecting again with no timer left over. */
  lemma {:induction false} ReconnectsWithoutLimit(c: Channel, n: nat)
    requires n > 0
    ensures var s := Run(c, Outages(n));
      && Retries(s.effects) == n
      && Connects(s.effects) == n
      && s.next == c.(connection := Connecting)
    decreases n
  {
    var events := Outages(n);
    var afterClose := Handle(c, Closed);
    var afterRetry := Handle(afterClose.next, RetryDue);
    assert events[1..][1..] == Outages(n - 1);
    assert afterRetry.next == c.(connection := Connecting);
    var rest := Run(afterRetry.next, Outages(n - 1));
    assert Run(c, events).effects == afterClose.effects + (afterRetry.effects + rest.effects);
    CountsAppend(afterRetry.effects, rest.effects);
    CountsAppend(afterClose.effects, afterRetry.effects + rest.effects);
    if n > 1 {
      ReconnectsWithoutLimit(c.(connection := Connecting), n - 1);
    }
  }
}

=== FILE: status_banner.dfy ===
/**
 The renderer's side of a download: the click that sends `download-audio`
 and the status banner the two replies set. The banner timers are not
 modelled.
 */
module StatusBanner {
  import opened Wrappers
  import DownloadHandler
  import FileList
  import Paths

  const StartedText := "Download started..."
  const FinishedText := "Download complete!"
  const ErrorPrefix := "Error: "

  /** The banner's CSS state: `started`, `finished` or `error`. */
  datatype Tone = Started | Finished | Failed

  datatype Banner = Banner(tone: Tone, text: string)

  /** What a click produces: the banner shown and the URL sent with `download-audio`. */
  datatype Click = Click(banner: Banner, sentUrl: string)

  /** What a reply produces: the banner and how many times the file list reloads. */
  datatype Reaction = Reaction(banner: Banner, reloads: nat)

  /** The download button: the URL field is sent as it is, even when empty. */
  function OnDownloadClick(url: string): (c: Click)
    ensures c.sentUrl == url
    ensures c.banner.tone == Started
    ensures c.banner == Banner(Started, StartedText)
  {
    Click(Banner(Started, StartedText), url)
  }

  /** The `download-complete` and `download-error` listeners. Two listeners
      are registered for `download-complete`, and each reloads the list. */
  function OnReply(reply: DownloadHandler.Reply): (r: Reaction)
    ensures r.banner.tone == Finished <==> reply.DownloadComplete?
    ensures r.banner.tone != Started
    ensures reply.DownloadComplete? ==> r.reloads == 2
    ensures reply.DownloadComplete? ==> r.banner == Banner(Finished, FinishedText)
    ensures reply.DownloadError? ==> r.reloads == 0 && r.banner.text == ErrorPrefix + reply.message
  {
    match reply
    case DownloadComplete(_) => Reaction(Banner(Finished, FinishedText), 2)
    case DownloadError(message) => Reaction(Banner(Failed, ErrorPrefix + message), 0)
  }

  /** A click always ends in one final banner: finished exactly when the
      service reported success, showing the error text otherwise. */
  lemma ClickEndsInOneVerdict(url: string, appDir: string, outcome: DownloadHandler.FetchOutcome)
    ensures var click := OnDownloadClick(url);
      var x := DownloadHandler.HandleDownload(click.sentUrl, appDir, outcome);
      && x.request.url == url
      && |x.replies| == 1
      && (OnReply(x.replies[0]).banner.tone == Finished <==> DownloadHandler.Succeeded(outcome))
      && OnReply(x.replies[0]).banner.tone != Started
  {
  }

  /** The table after a reply, as the renderer is written: a
      `download-complete` runs both listeners, each starting a load of the
      same folder, whose `rows` the two loads append in the interleaving
      `first`; an error leaves the `shown` table alone. */
  function TableAfterReplyAsWritten(reply: DownloadHandler.Reply, shown: seq<FileList.Row>,
                                    rows: seq<FileList.Row>, first: seq<bool>): (t: seq<FileList.Row>)
    ensures reply.DownloadError? ==> t == shown
    ensures reply.DownloadComplete? ==>
      |t| == OnReply(reply).reloads * |rows| && multiset(t) == multiset(rows) + multiset(rows)
  {
    if reply.DownloadComplete? then FileList.MergeLoads(rows, rows, first) else shown
  }

  /** After a successful download every file of a non-empty folder is shown
      twice, whatever order the loads finish in. */
  lemma ReplyRepeatsEveryRow(p: Option<string>, shown: seq<FileList.Row>, rows: seq<FileList.Row>, first: seq<bool>)
    requires rows != []
    ensures !FileList.DistinctPaths(TableAfterReplyAsWritten(DownloadHandler.DownloadComplete(p), shown, rows, first))
  {
    var t := TableAfterReplyAsWritten(DownloadHandler.DownloadComplete(p), shown, rows, first);
    assert multiset(t)[rows[0]] >= 2;
    if FileList.DistinctPaths(t) {
      FileList.DistinctRowsOccurOnce(t, rows[0]);
      assert false;
    }
  }

  /** The smallest case: a folder with one file shows it twice. */
  lemma OneFileShownTwice(r: FileList.Row)
    ensures TableAfterReplyAsWritten(DownloadHandler.DownloadComplete(None), [], [r], []) == [r, r]
  {
    assert [r][1..] == [];
    assert FileList.MergeLoads([r], [r], []) == [r] + FileList.MergeLoads([], [r], []);
  }

  /** The table after a reply with one load per `download-complete`: the
      folder's rows replace the table; an error leaves it alone. */
  function TableAfterReply(reply: DownloadHandler.Reply, shown: seq<FileList.Row>,
                           rows: seq<FileList.Row>): (t: seq<FileList.Row>)
    ensures reply.DownloadError? ==> t == shown
    ensures reply.DownloadComplete? ==> multiset(t) == multiset(rows)
  {
    if reply.DownloadComplete? then rows else shown
  }

  /** With one load per reply, a table of distinct paths stays one: every
      file of the folder is shown once, which is what deleting a row by its
      path relies on (`FileList.DeletedFileLeavesTable`). */
  lemma ReplyKeepsPathsDistinct(reply: DownloadHandler.Reply, shown: seq<FileList.Row>, folder: string,
                                files: seq<string>, rows: seq<FileList.Row>)
    requires FileList.DistinctPaths(shown)
    requires FileList.IsDirectoryListing(files) && |rows| == |files|
    requires forall k :: 0 <= k < |files| ==> rows[k].path == Paths.Join(folder, files[k])
    ensures FileList.DistinctPaths(TableAfterReply(reply, shown, rows))
  {
    FileList.ListedPathsDistinct(folder, files, rows);
  }
}

=== FILE: text.dfy ===
/**
 Decimal text of natural numbers, as JavaScript's `Number.prototype.toString()`
 writes an integer, together with the reader that inverts it, and the two
 string helpers the renderer uses (`endsWith`, `padStart`).
 */
module Text {
  import opened Wrappers

  /** `s.endsWith(suffix)`. */
  predicate EndsWith(s: string, suffix: string) {
    |suffix| <= |s| && s[|s| - |suffix|..] == suffix
  }

  predicate IsDigit(c: char) {
    '0' <= c <= '9'
  }

  predicate AllDigits(s: string) {
    forall i :: 0 <= i < |s| ==> IsDigit(s[i])
  }

  function DigitChar(d: nat): char
    requires d < 10
  {
    ('0' as int + d) as char
  }

  function DigitValue(c: char): nat
    requires IsDigit(c)
  {
    c as int - '0' as int
  }

  /** A digit string without a superfluous leading zero: the only form `toString()` produces. */
  predicate IsCanonicalDecimal(s: string) {
    1 <= |s| && AllDigits(s) && (|s| > 1 ==> s[0] != '0')
  }

  /** `n.toString()` for a non-negative integer. */
  function Decimal(n: nat): (r: string)
    ensures 1 <= |r|
    ensures AllDigits(r)
    ensures |r| == 1 <==> n < 10
    ensures r[0] == '0' <==> n == 0
    decreases n
  {
    if n < 10 then [DigitChar(n)] else Decimal(n / 10) + [DigitChar(n % 10)]
  }

  /** The number a digit string denotes; leading zeros are allowed. */
  function DecimalValue(s: string): nat
    requires AllDigits(s)
  {
    if |s| == 0 then 0 else DecimalValue(s[..|s| - 1]) * 10 + DigitValue(s[|s| - 1])
  }

  /** Reads a non-empty run of decimal digits. */
  function ParseDecimal(s: string): (r: Option<nat>)
    ensures r.Some? <==> 1 <= |s| && AllDigits(s)
  {
    if 1 <= |s| && AllDigits(s) then Some(DecimalValue(s)) else None
  }

  lemma {:induction false} DecimalValueOfDecimal(n: nat)
    ensures DecimalValue(Decimal(n)) == n
    decreases n
  {
    if n >= 10 {
      var r := Decimal(n);
      DecimalValueOfDecimal(n / 10);
      assert r[..|r| - 1] == Decimal(n / 10);
    }
  }

  /** Reading back what `Decimal` writes gives the number again, and the text is canonical. */
  lemma DecimalRoundTrip(n: nat)
    ensures ParseDecimal(Decimal(n)) == Some(n)
    ensures IsCanonicalDecimal(Decimal(n))
  {
    DecimalValueOfDecimal(n);
  }

  lemma {:induction false} LeadingDigitNonZero(s: string)
    requires 1 <= |s| && AllDigits(s) && s[0] != '0'
    ensures DecimalValue(s) >= 1
    decreases |s|
  {
    if |s| > 1 {
      LeadingDigitNonZero(s[..|s| - 1]);
    }
  }

  /** Conversely, a canonical digit string is what `Decimal` writes for its value. */
  lemma {:induction false} DecimalOfValue(s: string)
    requires IsCanonicalDecimal(s)
    ensures Decimal(DecimalValue(s)) == s
    decreases |s|
  {
    if |s| > 1 {
      var p := s[..|s| - 1];
      assert p[0] == s[0];
      LeadingDigitNonZero(p);
      DecimalOfValue(p);
      var v := DecimalValue(s);
      assert v / 10 == DecimalValue(p) && v % 10 == DigitValue(s[|s| - 1]);
      assert s == p + [s[|s| - 1]];
    }
  }

  /** `s.padStart(width, fill)` with a one-character fill. */
  function PadStart(s: string, width: nat, fill: char): (r: string)
    ensures |r| == if |s| < width then width else |s|
    ensures forall i :: |r| - |s| <= i < |r| ==> r[i] == s[i - (|r| - |s|)]
    ensures forall i :: 0 <= i < |r| - |s| ==> r[i] == fill
  {
    if |s| < width then seq(width - |s|, _ => fill) + s else s
  }
}

=== FILE: wrappers.dfy ===
/** The optional-value type the model uses for JavaScript's `null`/`undefined`. */
module Wrappers {

  /** An absent value (`null`, `undefined`) or a present one. */
  datatype Option<+T> = None | Some(value: T)
}
